=== FILE: README.md ===
# Storefront state and list logic, in Dafny

This project models the deterministic core of a small client-side
storefront (a Next.js + Redux Toolkit shop). It covers:

- the **cart store**: line items keyed by (product id, colour, size), a promo
  code with its discount percentage, and the browser's persisted copy of the
  lines;
- the **wishlist store**: product snapshots whose membership toggles by
  product id;
- the **filter-criteria store**: six setters and a reset;
- the **list utilities**: `calculateDiscount`, `filterProducts` and
  `sortProducts`;
- the arithmetic and validation embedded in two pages:
  - on the **cart page**, promo-form validation, the order summary
    (subtotal, promo discount, 18% tax, free shipping above 500, total) and
    the quantity buttons;
  - on the **products page**, the filter→sort pipeline, the reset to page 1,
    twelve products per page, the page count, the Previous/Next clamping and
    the price slider.

Every reducer is a pure function from state (and payload) to the next state.
The persisted browser record is an ordinary field, `saved`: it is `None` when
the record is absent and `Some(lines)` when it holds `lines`.
`Date.now()`, which line ids embed, is a parameter `now`.

Modules (one file each):

| module | file | models |
|---|---|---|
| `Text` | `text.dfy` | ASCII `toLowerCase`/`toUpperCase`, `includes`, ECMAScript `trim`, integer-to-decimal |
| `Seqs` | `seqs.dfy` | `Option`, `Array.prototype.filter` and `find`/`findIndex` over sequences |
| `Products` | `products.dfy` | the product record |
| `FiltersSlice` | `filters_slice.dfy` | `store/filtersSlice.js` |
| `Helpers` | `helpers.dfy` | `utils/helpers.js` |
| `CartSlice` | `cart_slice.dfy` | `store/cartSlice.js` |
| `WishlistSlice` | `wishlist_slice.dfy` | `store/wishlistSlice.js` |
| `CartPage` | `cart_page.dfy` | `app/cart/page.js` |
| `ProductsPage` | `products_page.dfy` | `app/products/page.js` |

Modelling choices:

- **Numbers.** Prices, discount percentages and ratings are exact `real`s. Ids and quantities are `int`s.
- **Sorting.** Each named sort key becomes a real *score* sorted ascending:
  - price for `price-low`;
  - minus the price for `price-high`;
  - minus the rating for `rating`;
  - minus the id for `newest`.

  `Array.prototype.sort` is stable (ECMA-262, 10th edition, section 22.1.3.27). The model sorts with a stable insertion sort and states stability as: for every score `k`, the products with score `k` appear in the same order before and after.
- **Case and whitespace.** Case mapping is ASCII only. `trim` uses the ECMAScript white-space and line-terminator set.
- **Cart lines.** A cart line holds the product as a nested record, where the source spreads the product's fields into the line object. The two are the same information.

## Model

| member | source | states |
|---|---|---|
| FiltersSlice.InitialFilters | store/filtersSlice.js:5-12 | the criteria start as category '', brand '', price range [0, 2000], rating 0, query '', sort 'relevance' |
| FiltersSlice.SettersTouchOneField | store/filtersSlice.js:14-31 | each setter stores its payload in its own field and leaves the other five fields unchanged |
| FiltersSlice.SettersLastWriteWins | store/filtersSlice.js:14-31 | applying the same setter twice equals applying it once with the second payload |
| FiltersSlice.ResetRestoresInitial | store/filtersSlice.js:32-39 | reset yields exactly the initial criteria from any state |
| FiltersSlice.ResetIdempotent | store/filtersSlice.js:32-39 | resetting twice equals resetting once |
| FiltersSlice.PriceRangeNotValidated | store/filtersSlice.js:20-22 | a range with max below min is stored as given: the store does not guarantee min ≤ max |
| Helpers.CalculateDiscount | utils/helpers.js:9-11 | the result is the price less the percentage; a zero percentage gives the price back; for a non-negative price and a percentage in [0, 100] the result lies between 0 and the price |
| Helpers.FilterProducts | utils/helpers.js:29-67 | the result is an order-preserving subsequence of the input; every kept product passes all five tests (sound); every input product passing them is kept (complete), with its full multiplicity; nothing else is kept |
| Helpers.FilterProductsIdempotent | utils/helpers.js:29-67 | filtering twice with the same criteria equals filtering once |
| Helpers.EmptyCriteriaUnconstrained | utils/helpers.js:33-63 | with empty category, brand and query, a product matches exactly when it passes the price and rating tests |
| Helpers.StableSort | utils/helpers.js:70-80 | the result is a permutation of the input, sorted by the score, and products of equal score keep their input order |
| Helpers.SortProducts | utils/helpers.js:69-84 | the result is a permutation sorted by the chosen key and stable among equal keys; any other key, such as 'relevance', returns the input order unchanged |
| Helpers.SortKeyOrders | utils/helpers.js:73-80 | 'price-low' gives non-decreasing price, 'price-high' non-increasing price, 'rating' non-increasing rating, 'newest' non-increasing id |
| Helpers.PriceLowThenHighReverses | utils/helpers.js:73-76 | when no two products share a price, sorting by 'price-low' and then by 'price-high' gives exactly the reverse order |
| Helpers.SortedPermutationUnique | utils/helpers.js:69-80 | a list strictly ordered by a key has no other sorted arrangement: any sorted permutation of it equals it |
| Helpers.DistinctPricesPermutation | utils/helpers.js:73-76 | supports `Helpers.PriceLowThenHighReverses`: rearranging a list with pairwise-distinct prices keeps the prices pairwise distinct, so the 'price-low' result inherits the input's distinct prices |
| Helpers.InsertSorted | utils/helpers.js:70-80 | inserting into a sorted sequence keeps it sorted |
| Helpers.InsertStable | utils/helpers.js:70-80 | among products of any one score, the inserted product comes first and the others keep their order |
| CartSlice.PromoDiscount | store/cartSlice.js:63-67 | the table's discounts are positive percentages of at most 100 |
| CartSlice.AddToCart | store/cartSlice.js:19-43 | a line with the same (id, colour, size) absorbs the quantity (default 1) and the line count and all other lines stay unchanged; otherwise one line carrying the quantity, colour, size and the built id is appended after the unchanged lines; the promo stays; the new lines are persisted |
| CartSlice.RemoveFromCart | store/cartSlice.js:44-49 | the result is a subsequence of the lines holding exactly the lines whose id differs (each with its multiplicity); an unknown id leaves the lines unchanged; the lines are persisted |
| CartSlice.UpdateQuantity | store/cartSlice.js:50-59 | the first line with the id gets max(1, quantity) and every other line is unchanged, so an unknown id changes no line; the lines are persisted even then |
| CartSlice.ApplyPromoCode | store/cartSlice.js:60-73 | a code found in the table after upper-casing sets the upper-cased code and its discount; any other code leaves the whole state unchanged; the lines are never touched |
| CartSlice.RemovePromoCode | store/cartSlice.js:74-77 | code and discount are cleared together; lines and storage are untouched |
| CartSlice.ClearCart | store/cartSlice.js:78-85 | no lines, no code, discount 0, and the persisted record is removed |
| CartSlice.PromoValidDiscountIffCode | store/cartSlice.js:15-16 | in a state where the promo is valid, the discount is non-zero exactly when a code is set, and it lies in [0, 100] |
| CartSlice.AddPreservesKeysUnique | store/cartSlice.js:19-38 | adding keeps at most one line per (id, colour, size) |
| CartSlice.RemovePreservesKeysUnique | store/cartSlice.js:44-45 | removing keeps at most one line per key |
| CartSlice.FilterKeepsKeysUnique | store/cartSlice.js:45 | any filter of lines with unique keys has unique keys |
| CartSlice.ReducePreservesKeysUnique | store/cartSlice.js:19-85 | every reducer keeps at most one line per key |
| CartSlice.ReducePreservesQuantitiesPositive | store/cartSlice.js:19-59 | if added quantities are at least 1, every reducer keeps every quantity at least 1 |
| CartSlice.ReducePreservesPromoValid | store/cartSlice.js:60-85 | every reducer keeps "discount is the table value of the code, or 0 with no code" |
| CartSlice.ReducePreservesStorageMirrors | store/cartSlice.js:40-84 | after every reducer the persisted record is absent or equal to the lines |
| CartSlice.LoadCartValid | store/cartSlice.js:3-17 | the initial state built from a well-formed (or absent) record satisfies every invariant |
| CartSlice.RunPreservesInvariant | store/cartSlice.js:19-85 | any run of actions with positive added quantities preserves all invariants, and reloading the persisted record gives back the current lines |
| CartSlice.AddTwiceMerges | store/cartSlice.js:21-37 | to a cart without that key, adding the same key twice yields one line carrying both quantities; the merged line is appended last, after the unchanged lines, with the id built by the first add |
| CartSlice.UpdateQuantityFloor | store/cartSlice.js:54 | the updated line's quantity is never below 1 and equals the request when that is at least 1 |
| CartSlice.CartItemIdCollides | store/cartSlice.js:36 | two different (colour, size) pairs can build the same line id at the same instant, so line ids are not unique by construction |
| WishlistSlice.LoadWishlistValid | store/wishlistSlice.js:3-15 | the initial state built from a record with unique ids has unique ids, and the record is either absent with no entries or holds exactly the entries |
| WishlistSlice.ToggleWishlist | store/wishlistSlice.js:17-30 | a listed product's first entry is removed (length − 1); an absent product is appended at the end (length + 1); the entries with other ids stay, in order; the list is persisted |
| WishlistSlice.ToggleFlipsMembership | store/wishlistSlice.js:17-25 | with unique ids, a toggle flips the product's membership and keeps the ids unique |
| WishlistSlice.ToggleTwiceWhenAbsent | store/wishlistSlice.js:19-25 | from a list without the product, toggling twice gives the same list back |
| WishlistSlice.ToggleTwiceWhenPresent | store/wishlistSlice.js:21-24 | with unique ids, toggling a listed product twice moves its entry to the end as the toggled snapshot; the list comes back unchanged only when that entry was last and equal to the snapshot |
| WishlistSlice.ToggleTwiceWithRepeatedId | store/wishlistSlice.js:3-25 | the loaded record is not checked for repeated ids; with two entries of one id, toggling that id twice removes both and the list ends empty |
| Text.TrimEmptyIffBlank | app/cart/page.js:38 | `trim()` gives the empty string exactly when the input is all white space |
| CartPage.HandleApplyPromo | app/cart/page.js:37-51 | blank input gives "Please enter a promo code" and dispatches nothing; input whose upper-cased form is a valid code is dispatched as typed and clears error and input; anything else gives "Invalid promo code" and dispatches nothing |
| CartPage.ValidCodesMatchTable | app/cart/page.js:43 | the page's list of codes and the store's table name the same codes |
| CartPage.PromoFormAgreesWithStore | app/cart/page.js:37-51 | the page dispatches exactly the inputs the store's table accepts, and a dispatch always sets the upper-cased code |
| CartPage.PromoExamples | app/cart/page.js:44-45 | "save10" is accepted as SAVE10 with 10%; an unknown code leaves the cart unchanged |
| CartPage.SubtotalConcat | app/cart/page.js:62-65 | the subtotal of two runs of lines is the sum of their subtotals |
| CartPage.SubtotalNonNegative | app/cart/page.js:62-65 | lines with non-negative prices, discounts in [0, 100] and non-negative quantities have a non-negative subtotal |
| CartPage.SubtotalUpdateAt | app/cart/page.js:62-65 | replacing a line changes the subtotal by the difference of the two line totals |
| CartPage.SubtotalAddAt | app/cart/page.js:62-65 | raising one line's quantity by q raises the subtotal by q discounted unit prices |
| CartPage.SubtotalAfterAppend | app/cart/page.js:62-65 | adding a new line raises the subtotal by the added quantity times the product's discounted unit price |
| CartPage.OrderSummary | app/cart/page.js:61-70 | discount is subtotal × percentage / 100; tax is 18% of the discounted subtotal; shipping is 0 exactly when the subtotal exceeds 500 (so exactly 500 pays 50) and 50 otherwise; total is discounted subtotal plus tax plus shipping; the total computed for no lines is 50 (not displayed: the page shows its empty-cart view instead) |
| CartPage.TotalCoversShipping | app/cart/page.js:67-70 | with a non-negative subtotal and a discount in [0, 100], 0 ≤ shipping ≤ total |
| CartPage.ReachableCartTotal | app/cart/page.js:61-70 | every cart the store can reach, with sane prices, has total ≥ shipping ≥ 0 |
| CartPage.QuantityButtons | app/cart/page.js:157-171 | for a line first with its id and with quantity at least 1, minus is disabled exactly at quantity 1 and otherwise lowers the quantity by one to at least 1; plus raises it by one |
| ProductsPage.DisplayedProducts | app/products/page.js:55-60 | the shown list holds exactly the matching products with their catalog multiplicity, sorted by the chosen key and stable among equal keys; with an unknown key it is the filtered list |
| ProductsPage.OnInputsChanged | app/products/page.js:55-60 | any change of catalog or criteria returns to page 1 and replaces the shown list by the matching products with their catalog multiplicity, stably sorted by the chosen key, or in catalog order for an unknown key such as 'relevance' |
| ProductsPage.PageItems | app/products/page.js:67-70 | page p ≥ 1 shows positions [(p − 1)·12, p·12) of the list, cut at its end, so at most 12 products |
| ProductsPage.TotalPages | app/products/page.js:71 | the page count is the fewest pages of twelve that hold the list (the ceiling of n / 12) |
| ProductsPage.PagesNonEmpty | app/products/page.js:67-71 | every page from 1 to the page count shows at least one product |
| ProductsPage.PagesUpToIsPrefix | app/products/page.js:67-70 | the first k pages together are the first 12k products |
| ProductsPage.AllPagesAreTheList | app/products/page.js:67-71 | all pages together are exactly the list |
| ProductsPage.PrevPage | app/products/page.js:247 | Previous never goes below page 1 and otherwise goes one page back |
| ProductsPage.NextPage | app/products/page.js:269 | Next never passes the last page and otherwise goes one page on |
| ProductsPage.ButtonsStayInRange | app/products/page.js:245-271 | from a page in range, both buttons land on a page in range |
| ProductsPage.SliderRange | app/products/page.js:130 | the slider always dispatches a range whose lower bound is 0 |
| ProductsPage.SliderSetsPriceTest | app/products/page.js:130 | after the slider moves to a value, the price test keeps exactly the products priced from 0 up to that value, whatever range was set before |
| Seqs.FilterIsSubsequence | utils/helpers.js:30 | `filter` keeps an order-preserving subsequence |
| Seqs.FilterCounts | utils/helpers.js:30 | `filter` keeps every accepted element with its full multiplicity and nothing else |
| Seqs.FilterIdempotent | utils/helpers.js:30 | filtering twice with the same predicate equals filtering once |
| Seqs.FindFirst | store/wishlistSlice.js:19 | the index found holds the first element accepted, and none is found only when no element is accepted |
| Seqs.ReverseMultiset | utils/helpers.js:73-76 | supports `Helpers.PriceLowThenHighReverses`: reading a list back to front keeps every element with its multiplicity, so the reversed 'price-low' result is a permutation of the 'price-high' result |

## Left out

- Reading and writing `localStorage`, and `JSON.parse`/`JSON.stringify` (store/cartSlice.js:3-9, store/wishlistSlice.js:3-9): the persisted record is the `saved` field, and serialisation is taken to be exact. The server-side branch, where `window` is undefined and nothing is stored, is not modelled.
- `Date.now()` (store/cartSlice.js:36) is the parameter `now`. Line-id uniqueness is not claimed, because the code does not guarantee it; `CartItemIdCollides` exhibits a collision. With duplicate ids, remove deletes every match and update changes only the first; the model states both as written.
- JavaScript's IEEE-754 numbers: all prices, percentages, ratings and totals are exact reals, so rounding and `NaN` are not modelled. Comparator subtraction on ids and ratings is exact.
- Unicode case mapping: `toLowerCase`/`toUpperCase` are ASCII only. JavaScript also maps non-ASCII letters; for example, U+017F upper-cases to 'S'.
- The product catalog fetches, the debounce on the search box, `formatPrice` (locale formatting) and `getProductRating` (float rounding) are I/O, timers or floating point.
- The URL `category` parameter effect (app/products/page.js:47-52) is routing. When it fires, it dispatches `setCategory`, which `FiltersSlice.SettersTouchOneField` covers.
- The checkout form (`handleCheckoutSubmit`) and all rendering are UI. The checkout form ends in `clearCart`, which is modelled.
- The numbered page buttons set the page to their own number and are not modelled separately.
- The shape of catalog products is trusted. `filterProducts` calls `toLowerCase` on `category`, `brand`, `title` and `description` without checking that the field exists (utils/helpers.js:34-58). A catalog entry missing one of them makes the filter throw a TypeError once a criterion that reads that field is set: a category for `category`; a brand for `brand`; any search query for `title`, `description` and `brand`. The model's product record always has every field, so that failure is not modelled.
- The slider's `parseInt` of the input's value: the value is taken as the integer it denotes.
- `ApplyPromoCode` looks the code up in a table of three entries. JavaScript's object lookup would also consult inherited property names, but none of them is in upper case, so no upper-cased code can reach one.
- `FiltersSlice.SettersLastWriteWins` covers two consecutive writes by the same setter. Interleaving with other setters follows from `FiltersSlice.SettersTouchOneField`.
- `CartPage.SubtotalAfterAppend` covers only a newly appended line. When a line is merged, the change is `CartPage.SubtotalAddAt` applied to the line that absorbs the quantity; no single lemma states this over `CartSlice.AddToCart`.

## Notes

- With unique ids, toggling a listed product twice moves its entry to the end as the toggled snapshot; the list comes back unchanged only when that entry was last and equal to the snapshot (`WishlistSlice.ToggleTwiceWhenPresent`). From a list without the product, a double toggle restores it exactly (`WishlistSlice.ToggleTwiceWhenAbsent`).
- The stored wishlist is loaded without a check (store/wishlistSlice.js:3-7), so its ids need not be unique. With two entries of one id, a double toggle removes both and appends nothing (`WishlistSlice.ToggleTwiceWithRepeatedId`).
- Cart line ids join the product id, colour, size and timestamp with '-'. A colour or size that itself contains '-' can therefore give two different keys the same id in the same millisecond (`CartSlice.CartItemIdCollides`). The app's two callers pass colours and sizes without a hyphen (app/products/[id]/page.js:28-29, components/common/ProductCard.js:28-29), so a collision needs some other caller.

=== FILE: cart_page.dfy ===
/**
 * The arithmetic and validation embedded in the cart page
 * (`app/cart/page.js`): the promo-code form handler, the order summary
 * (subtotal, promo discount, 18% tax, shipping, total) and the requests the
 * quantity buttons dispatch.
 */
module CartPage {
  import opened Seqs
  import opened Text
  import opened Products
  import opened Helpers
  import opened CartSlice

  // ---------------------------------------------------------------------------
  // Promo form
  // ---------------------------------------------------------------------------

  /** The page's own copy of the codes it lets through. */
  const ValidCodes: seq<string> := ["SAVE10", "SAVE20", "WELCOME"]

  /**
   * What `handleApplyPromo` leaves behind: the error message shown, the raw
   * input dispatched to `applyPromoCode` (if any), and the input box.
   */
  datatype PromoOutcome = PromoOutcome(error: string, dispatched: Option<string>, input: string)

  /**
   * Blank input is refused with "Please enter a promo code"; otherwise the
   * upper-cased input must be one of the valid codes, or the error is
   * "Invalid promo code". Only an accepted code is dispatched (as typed),
   * after which the error and the input box are cleared.
   */
  function HandleApplyPromo(input: string): (r: PromoOutcome)
    ensures AllWhitespace(input) ==> r == PromoOutcome("Please enter a promo code", None, input)
    ensures !AllWhitespace(input) && Upper(input) in ValidCodes ==> r == PromoOutcome("", Some(input), "")
    ensures !AllWhitespace(input) && Upper(input) !in ValidCodes ==> r == PromoOutcome("Invalid promo code", None, input)
  {
    TrimEmptyIffBlank(input);
    if Trim(input) == [] then PromoOutcome("Please enter a promo code", None, input)
    else if Upper(input) in ValidCodes then PromoOutcome("", Some(input), "")
    else PromoOutcome("Invalid promo code", None, input)
  }

  /** The page's list and the store's table name the same codes. */
  lemma ValidCodesMatchTable(code: string)
    ensures code in ValidCodes <==> PromoDiscount(code).Some?
  {
  }

  /** Blank input, upper-cased, is still blank and so is no code of the table. */
  lemma BlankIsNoCode(s: string)
    requires AllWhitespace(s)
    ensures PromoDiscount(Upper(s)).None?
  {
    var u := Upper(s);
    assert AllWhitespace(u);
    assert !IsWhitespace('S') && !IsWhitespace('W');
    assert "SAVE10"[0] == 'S' && "SAVE20"[0] == 'S' && "WELCOME"[0] == 'W';
  }

  /**
   * The page and the store agree: the page dispatches a code exactly when
   * the store's table accepts it, and a dispatched code always sets the
   * store's promo to the upper-cased code.
   */
  lemma PromoFormAgreesWithStore(c: Cart, input: string)
    ensures HandleApplyPromo(input).dispatched.Some? <==> PromoDiscount(Upper(input)).Some?
    ensures HandleApplyPromo(input).dispatched.Some? ==>
      ApplyPromoCode(c, input).promoCode == Some(Upper(input))
  {
    ValidCodesMatchTable(Upper(input));
    if AllWhitespace(input) {
      BlankIsNoCode(input);
    }
  }

  /** Lower-case input is accepted; an unknown code leaves the cart as it was. */
  lemma PromoExamples(c: Cart)
    ensures ApplyPromoCode(c, "save10").promoCode == Some("SAVE10")
    ensures ApplyPromoCode(c, "save10").discount == 10
    ensures ApplyPromoCode(c, "BOGUS") == c
  {
    assert Upper("save10") == "SAVE10";
    assert Upper("BOGUS") == "BOGUS";
  }

  // ---------------------------------------------------------------------------
  // Order summary
  // ---------------------------------------------------------------------------

  /** The discounted unit price times the quantity. */
  function LineTotal(l: CartLine): real {
    UnitPrice(l.product) * (l.quantity as real)
  }

  /** `items.reduce((total, item) => total + LineTotal(item), 0)`. */
  function Subtotal(items: seq<CartLine>): real {
    if |items| == 0 then 0.0 else Subtotal(items[..|items| - 1]) + LineTotal(items[|items| - 1])
  }

  /** Prices and discounts as the catalog serves them, and a quantity that is not negative. */
  ghost predicate SaneLine(l: CartLine) {
    && 0.0 <= l.product.price
    && 0.0 <= l.product.discountPercentage <= 100.0
    && 0 <= l.quantity
  }

  lemma {:induction false} SubtotalConcat(a: seq<CartLine>, b: seq<CartLine>)
    ensures Subtotal(a + b) == Subtotal(a) + Subtotal(b)
    decreases |b|
  {
    if |b| > 0 {
      SubtotalConcat(a, b[..|b| - 1]);
      assert (a + b)[..|a + b| - 1] == a + b[..|b| - 1];
    } else {
      assert a + b == a;
    }
  }

  /** Sane lines add up to a subtotal that is not negative. */
  lemma {:induction false} SubtotalNonNegative(items: seq<CartLine>)
    requires forall i :: 0 <= i < |items| ==> SaneLine(items[i])
    ensures Subtotal(items) >= 0.0
  {
    if |items| > 0 {
      SubtotalNonNegative(items[..|items| - 1]);
      var l := items[|items| - 1];
      assert SaneLine(l);
      var price := UnitPrice(l.product);
      assert price >= 0.0;
      assert price * (l.quantity as real) >= 0.0;
    }
  }

  /** Replacing one line changes the subtotal by the difference of the two line totals. */
  lemma SubtotalUpdateAt(items: seq<CartLine>, i: int, l: CartLine)
    requires 0 <= i < |items|
    ensures Subtotal(items[i := l]) == Subtotal(items) - LineTotal(items[i]) + LineTotal(l)
  {
    var a, b := items[..i], items[i + 1..];
    assert items == (a + [items[i]]) + b;
    assert items[i := l] == (a + [l]) + b;
    SubtotalConcat(a + [items[i]], b);
    SubtotalConcat(a + [l], b);
    assert (a + [l])[..|a|] == a;
    assert (a + [items[i]])[..|a|] == a;
  }

  /** The discounted unit price of a product. */
  function UnitPrice(p: Product): real {
    CalculateDiscount(p.price, p.discountPercentage)
  }

  /** Raising a line's quantity by `q` raises its total by `q` unit prices. */
  lemma LineTotalAdd(l: CartLine, q: int)
    ensures LineTotal(l.(quantity := l.quantity + q)) == LineTotal(l) + UnitPrice(l.product) * (q as real)
  {
    var u := UnitPrice(l.product);
    assert u * ((l.quantity + q) as real) == u * (l.quantity as real) + u * (q as real);
  }

  /** Raising the quantity of line `i` by `q` raises the subtotal by `q` of its unit prices. */
  lemma SubtotalAddAt(items: seq<CartLine>, i: int, q: int)
    requires 0 <= i < |items|
    ensures Subtotal(items[i := items[i].(quantity := items[i].quantity + q)])
      == Subtotal(items) + UnitPrice(items[i].product) * (q as real)
  {
    var l := items[i].(quantity := items[i].quantity + q);
    SubtotalUpdateAt(items, i, l);
    LineTotalAdd(items[i], q);
  }

  /**
   * Adding a new line raises the subtotal by the added quantity times the
   * product's discounted unit price. (A merged line is `SubtotalAddAt`
   * applied to the line that absorbs the quantity.)
   */
  lemma SubtotalAfterAppend(c: Cart, product: Product, quantity: Option<int>, color: string, size: string, now: nat)
    requires forall i :: 0 <= i < |c.items| ==> !HasKey(c.items[i], product.id, color, size)
    ensures Subtotal(AddToCart(c, product, quantity, color, size, now).items)
      == Subtotal(c.items) + UnitPrice(product) * (DefaultQuantity(quantity) as real)
  {
    var r := AddToCart(c, product, quantity, color, size, now);
    var l := CartLine(product, DefaultQuantity(quantity), color, size, CartItemId(product.id, color, size, now));
    assert r.items == c.items + [l];
    assert r.items[..|r.items| - 1] == c.items;
  }

  datatype Summary = Summary(subtotal: real, discountAmount: real, tax: real, shipping: real, total: real)

  /**
   * The order summary: the promo percentage comes off the subtotal, 18% tax
   * is charged on what remains, and shipping is free only above 500. (For
   * no lines the page shows its empty-cart view instead of a summary.)
   */
  function OrderSummary(items: seq<CartLine>, discount: int): (s: Summary)
    ensures s.subtotal == Subtotal(items)
    ensures s.discountAmount == s.subtotal * (discount as real) / 100.0
    ensures s.tax == (s.subtotal - s.discountAmount) * 0.18
    ensures s.total == s.subtotal - s.discountAmount + s.tax + s.shipping
    ensures s.total == (s.subtotal - s.discountAmount) * 1.18 + s.shipping
    ensures s.shipping == 0.0 <==> s.subtotal > 500.0
    ensures s.shipping == 0.0 || s.shipping == 50.0
    ensures items == [] ==> s.subtotal == 0.0 && s.shipping == 50.0 && s.total == 50.0
  {
    var subtotal := Subtotal(items);
    var discountAmount := (subtotal * (discount as real)) / 100.0;
    var tax := (subtotal - discountAmount) * 0.18;
    var shipping := if subtotal > 500.0 then 0.0 else 50.0;
    Summary(subtotal, discountAmount, tax, shipping, subtotal - discountAmount + tax + shipping)
  }

  /** With a non-negative subtotal and a percentage discount, the total covers at least shipping. */
  lemma TotalCoversShipping(items: seq<CartLine>, discount: int)
    requires Subtotal(items) >= 0.0 && 0 <= discount <= 100
    ensures 0.0 <= OrderSummary(items, discount).shipping <= OrderSummary(items, discount).total
  {
    var s := OrderSummary(items, discount);
    ScaleMonotone(s.subtotal, discount as real, 100.0);
    assert s.discountAmount <= s.subtotal;
  }

  /** Every cart the store can reach, holding sane lines, has a total of at least its shipping. */
  lemma ReachableCartTotal(c: Cart)
    requires Invariant(c)
    requires forall i :: 0 <= i < |c.items| ==> SaneLine(c.items[i])
    ensures 0.0 <= OrderSummary(c.items, c.discount).shipping <= OrderSummary(c.items, c.discount).total
  {
    PromoValidDiscountIffCode(c);
    SubtotalNonNegative(c.items);
    TotalCoversShipping(c.items, c.discount);
  }

  // ---------------------------------------------------------------------------
  // Quantity buttons
  // ---------------------------------------------------------------------------

  /** The minus button: disabled at quantity 1 or less, else asks for one less. */
  function DecrementRequest(l: CartLine): Option<CartAction> {
    if l.quantity <= 1 then None else Some(SetLineQuantity(l.cartItemId, l.quantity - 1))
  }

  /** The plus button always asks for one more. */
  function IncrementRequest(l: CartLine): CartAction {
    SetLineQuantity(l.cartItemId, l.quantity + 1)
  }

  /**
   * For the first line with its id, the minus button lowers the quantity by
   * exactly one and never below one, and the plus button raises it by one.
   */
  lemma QuantityButtons(c: Cart, i: int)
    requires 0 <= i < |c.items| && IsFirstWithId(c.items, c.items[i].cartItemId, i)
    requires c.items[i].quantity >= 1
    ensures DecrementRequest(c.items[i]).Some? ==>
      var q := Reduce(c, DecrementRequest(c.items[i]).value).items[i].quantity;
      q == c.items[i].quantity - 1 && q >= 1
    ensures DecrementRequest(c.items[i]).None? <==> c.items[i].quantity == 1
    ensures Reduce(c, IncrementRequest(c.items[i])).items[i].quantity == c.items[i].quantity + 1
  {
  }
}

=== FILE: cart_slice.dfy ===
/**
 * The cart store (`store/cartSlice.js`): line items keyed by
 * (product id, colour, size), an optional promo code and its discount
 * percentage, and the browser's persisted copy of the line items.
 *
 * The persisted `cart` record is the field `saved`: `None` when the record is
 * absent, `Some(lines)` when it holds `lines` (serialisation is taken to be
 * exact). `Date.now()`, used to build line ids, is the parameter `now`.
 */
module CartSlice {
  import opened Seqs
  import opened Text
  import opened Products

  datatype CartLine = CartLine(
    product: Product,
    quantity: int,
    selectedColor: string,
    selectedSize: string,
    cartItemId: string
  )

  datatype Cart = Cart(
    items: seq<CartLine>,
    promoCode: Option<string>,
    discount: int,
    saved: Option<seq<CartLine>>
  )

  /** The actions the slice exports. `quantity` is `None` when the payload omits it. */
  datatype CartAction =
    | AddLine(product: Product, quantity: Option<int>, selectedColor: string, selectedSize: string, now: nat)
    | RemoveLine(lineId: string)
    | SetLineQuantity(targetId: string, newQuantity: int)
    | EnterPromo(code: string)
    | DropPromo
    | EmptyCart

  // ---------------------------------------------------------------------------
  // Keys, ids and the promo table
  // ---------------------------------------------------------------------------

  predicate HasKey(l: CartLine, id: int, color: string, size: string) {
    l.product.id == id && l.selectedColor == color && l.selectedSize == size
  }

  predicate SameKey(a: CartLine, b: CartLine) {
    HasKey(b, a.product.id, a.selectedColor, a.selectedSize)
  }

  function KeyMatcher(id: int, color: string, size: string): CartLine -> bool {
    l => HasKey(l, id, color, size)
  }

  function IdMatcher(lineId: string): CartLine -> bool {
    (l: CartLine) => l.cartItemId == lineId
  }

  function OtherIdMatcher(lineId: string): CartLine -> bool {
    (l: CartLine) => l.cartItemId != lineId
  }

  /** Index `i` holds the first line with the given key. */
  predicate IsFirstWithKey(items: seq<CartLine>, id: int, color: string, size: string, i: int) {
    IsFirst(items, KeyMatcher(id, color, size), i)
  }

  /** Index `i` holds the first line with the given line id. */
  predicate IsFirstWithId(items: seq<CartLine>, lineId: string, i: int) {
    IsFirst(items, IdMatcher(lineId), i)
  }

  /** The template literal `${id}-${color}-${size}-${Date.now()}`. */
  function CartItemId(id: int, color: string, size: string, now: nat): string {
    IntToString(id) + "-" + color + "-" + size + "-" + NatToString(now)
  }

  /** The fixed promo table; codes are looked up after upper-casing. */
  function PromoDiscount(code: string): (d: Option<int>)
    ensures d.Some? ==> 0 < d.value <= 100
  {
    if code == "SAVE10" then Some(10)
    else if code == "SAVE20" then Some(20)
    else if code == "WELCOME" then Some(15)
    else None
  }

  function DefaultQuantity(quantity: Option<int>): int {
    if quantity.Some? then quantity.value else 1
  }

  // ---------------------------------------------------------------------------
  // Reducers
  // ---------------------------------------------------------------------------

  /** The initial state: the persisted lines when there are any, no promo. */
  function LoadCart(stored: Option<seq<CartLine>>): Cart {
    Cart(if stored.Some? then stored.value else [], None, 0, stored)
  }

  /**
   * `addToCart`: a line with the same (id, colour, size) absorbs the
   * quantity; otherwise a new line is appended. The lines are persisted.
   */
  function AddToCart(c: Cart, product: Product, quantity: Option<int>, color: string, size: string, now: nat): (r: Cart)
    ensures r.promoCode == c.promoCode && r.discount == c.discount && r.saved == Some(r.items)
    ensures forall i :: IsFirstWithKey(c.items, product.id, color, size, i) ==>
      && |r.items| == |c.items|
      && r.items[i] == c.items[i].(quantity := c.items[i].quantity + DefaultQuantity(quantity))
      && forall j :: 0 <= j < |c.items| && j != i ==> r.items[j] == c.items[j]
    ensures (forall i :: 0 <= i < |c.items| ==> !HasKey(c.items[i], product.id, color, size)) ==>
      r.items == c.items + [CartLine(product, DefaultQuantity(quantity), color, size, CartItemId(product.id, color, size, now))]
  {
    var q := DefaultQuantity(quantity);
    var items :=
      match FindFirst(c.items, KeyMatcher(product.id, color, size))
      case Some(i) => c.items[i := c.items[i].(quantity := c.items[i].quantity + q)]
      case None => c.items + [CartLine(product, q, color, size, CartItemId(product.id, color, size, now))];
    c.(items := items, saved := Some(items))
  }

  /**
   * `removeFromCart`: keeps, in order, exactly the lines whose id differs
   * (every line with the id goes). The lines are persisted.
   */
  function RemoveFromCart(c: Cart, lineId: string): (r: Cart)
    ensures r.promoCode == c.promoCode && r.discount == c.discount && r.saved == Some(r.items)
    ensures IsSubsequence(r.items, c.items)
    ensures forall l :: multiset(r.items)[l] == if l.cartItemId != lineId then multiset(c.items)[l] else 0
    ensures (forall i :: 0 <= i < |c.items| ==> c.items[i].cartItemId != lineId) ==> r.items == c.items
  {
    FilterIsSubsequence(c.items, OtherIdMatcher(lineId));
    FilterCounts(c.items, OtherIdMatcher(lineId));
    FilterAllKept(c.items, OtherIdMatcher(lineId));
    var items := Filter(c.items, OtherIdMatcher(lineId));
    c.(items := items, saved := Some(items))
  }

  /**
   * `updateQuantity`: the first line with the id gets `max(1, quantity)`;
   * every other line is unchanged. The lines are persisted even when no
   * line has the id.
   */
  function UpdateQuantity(c: Cart, lineId: string, quantity: int): (r: Cart)
    ensures r.promoCode == c.promoCode && r.discount == c.discount && r.saved == Some(r.items)
    ensures |r.items| == |c.items|
    ensures forall i :: 0 <= i < |c.items| ==>
      r.items[i] == if IsFirstWithId(c.items, lineId, i) then c.items[i].(quantity := if quantity < 1 then 1 else quantity) else c.items[i]
  {
    var items :=
      match FindFirst(c.items, IdMatcher(lineId))
      case Some(i) => c.items[i := c.items[i].(quantity := if 1 < quantity then quantity else 1)]
      case None => c.items;
    c.(items := items, saved := Some(items))
  }

  /**
   * `applyPromoCode`: a code found in the table after upper-casing sets the
   * upper-cased code and its discount; any other code changes nothing.
   * The lines and their persisted copy are never touched.
   */
  function ApplyPromoCode(c: Cart, code: string): (r: Cart)
    ensures r.items == c.items && r.saved == c.saved
    ensures PromoDiscount(Upper(code)).Some? ==>
      r.promoCode == Some(Upper(code)) && r.discount == PromoDiscount(Upper(code)).value
    ensures PromoDiscount(Upper(code)).None? ==> r == c
  {
    var upper := Upper(code);
    match PromoDiscount(upper)
    case Some(d) => c.(promoCode := Some(upper), discount := d)
    case None => c
  }

  /** `removePromoCode`: clears code and discount together, storage untouched. */
  function RemovePromoCode(c: Cart): (r: Cart)
    ensures r.items == c.items && r.saved == c.saved
    ensures r.promoCode.None? && r.discount == 0
  {
    c.(promoCode := None, discount := 0)
  }

  /** `clearCart`: no lines, no promo, and the persisted record removed. */
  function ClearCart(c: Cart): (r: Cart)
    ensures r.items == [] && r.promoCode.None? && r.discount == 0 && r.saved.None?
  {
    Cart([], None, 0, None)
  }

  function Reduce(c: Cart, a: CartAction): Cart {
    match a
    case AddLine(p, q, color, size, now) => AddToCart(c, p, q, color, size, now)
    case RemoveLine(id) => RemoveFromCart(c, id)
    case SetLineQuantity(id, q) => UpdateQuantity(c, id, q)
    case EnterPromo(code) => ApplyPromoCode(c, code)
    case DropPromo => RemovePromoCode(c)
    case EmptyCart => ClearCart(c)
  }

  /** The state after dispatching `actions` in order. */
  function Run(c: Cart, actions: seq<CartAction>): Cart
    decreases |actions|
  {
    if |actions| == 0 then c else Run(Reduce(c, actions[0]), actions[1..])
  }

  // ---------------------------------------------------------------------------
  // Invariants
  // ---------------------------------------------------------------------------

  /** At most one line per (product id, colour, size). */
  ghost predicate KeysUnique(items: seq<CartLine>) {
    forall i, j :: 0 <= i < j < |items| ==> !SameKey(items[i], items[j])
  }

  ghost predicate QuantitiesPositive(items: seq<CartLine>) {
    forall i :: 0 <= i < |items| ==> items[i].quantity >= 1
  }

  /** Either no promo and no discount, or a code of the table and its discount. */
  ghost predicate PromoValid(c: Cart) {
    || (c.promoCode.None? && c.discount == 0)
    || (c.promoCode.Some? && PromoDiscount(c.promoCode.value) == Some(c.discount))
  }

  /** The persisted record holds the current lines, or is absent and the cart empty. */
  ghost predicate StorageMirrors(c: Cart) {
    c.saved == Some(c.items) || (c.saved.None? && c.items == [])
  }

  /** Every add either omits the quantity or asks for at least one. */
  ghost predicate PositiveAdd(a: CartAction) {
    a.AddLine? ==> DefaultQuantity(a.quantity) >= 1
  }

  ghost predicate Invariant(c: Cart) {
    KeysUnique(c.items) && QuantitiesPositive(c.items) && PromoValid(c) && StorageMirrors(c)
  }

  /** A valid promo state has a discount exactly when it has a code, and the discount is a percentage. */
  lemma PromoValidDiscountIffCode(c: Cart)
    requires PromoValid(c)
    ensures c.discount != 0 <==> c.promoCode.Some?
    ensures 0 <= c.discount <= 100
  {
  }

  lemma AddPreservesKeysUnique(c: Cart, product: Product, quantity: Option<int>, color: string, size: string, now: nat)
    requires KeysUnique(c.items)
    ensures KeysUnique(AddToCart(c, product, quantity, color, size, now).items)
  {
    var r := AddToCart(c, product, quantity, color, size, now);
    match FindFirst(c.items, KeyMatcher(product.id, color, size))
    case Some(i) =>
      assert IsFirstWithKey(c.items, product.id, color, size, i);
      forall a, b | 0 <= a < b < |r.items| ensures !SameKey(r.items[a], r.items[b]) {
        assert SameKey(r.items[a], r.items[b]) == SameKey(c.items[a], c.items[b]);
      }
    case None =>
      forall a, b | 0 <= a < b < |r.items| ensures !SameKey(r.items[a], r.items[b]) {
        if b == |c.items| {
          assert !HasKey(c.items[a], product.id, color, size);
        }
      }
  }

  lemma RemovePreservesKeysUnique(c: Cart, lineId: string)
    requires KeysUnique(c.items)
    ensures KeysUnique(RemoveFromCart(c, lineId).items)
  {
    FilterKeepsKeysUnique(c.items, OtherIdMatcher(lineId));
  }

  lemma {:induction false} FilterKeepsKeysUnique(items: seq<CartLine>, keep: CartLine -> bool)
    requires KeysUnique(items)
    ensures KeysUnique(Filter(items, keep))
  {
    if |items| > 0 {
      FilterKeepsKeysUnique(items[1..], keep);
      var rest := Filter(items[1..], keep);
      if keep(items[0]) {
        var r := Filter(items, keep);
        assert r == [items[0]] + rest;
        forall b | 0 <= b < |rest| ensures !SameKey(items[0], rest[b]) {
          assert rest[b] in items[1..];
        }
      }
    }
  }

  /** Quantities stay at least one when every add asks for at least one. */
  lemma ReducePreservesQuantitiesPositive(c: Cart, a: CartAction)
    requires QuantitiesPositive(c.items) && PositiveAdd(a)
    ensures QuantitiesPositive(Reduce(c, a).items)
  {
    if a.RemoveLine? {
      var r := Reduce(c, a);
      forall i | 0 <= i < |r.items| ensures r.items[i].quantity >= 1 {
        assert r.items[i] in multiset(r.items);
        assert r.items[i] in c.items;
      }
    } else if a.AddLine? {
      var r := Reduce(c, a);
      match FindFirst(c.items, KeyMatcher(a.product.id, a.selectedColor, a.selectedSize))
      case Some(i) =>
        assert IsFirstWithKey(c.items, a.product.id, a.selectedColor, a.selectedSize, i);
      case None =>
    }
  }

  /** The line keys stay unique under every action. */
  lemma ReducePreservesKeysUnique(c: Cart, a: CartAction)
    requires KeysUnique(c.items)
    ensures KeysUnique(Reduce(c, a).items)
  {
    match a
    case AddLine(p, q, color, size, now) => AddPreservesKeysUnique(c, p, q, color, size, now);
    case RemoveLine(id) => RemovePreservesKeysUnique(c, id);
    case SetLineQuantity(id, q) =>
      var r := Reduce(c, a);
      assert forall i :: 0 <= i < |r.items| ==> SameKey(r.items[i], c.items[i]) && SameKey(c.items[i], r.items[i]);
    case EnterPromo(code) =>
    case DropPromo =>
    case EmptyCart =>
  }

  /** Code and discount are set and cleared together under every action. */
  lemma ReducePreservesPromoValid(c: Cart, a: CartAction)
    requires PromoValid(c)
    ensures PromoValid(Reduce(c, a))
  {
  }

  /** The persisted record follows the lines under every action. */
  lemma ReducePreservesStorageMirrors(c: Cart, a: CartAction)
    requires StorageMirrors(c)
    ensures StorageMirrors(Reduce(c, a))
  {
  }

  /** A cart loaded from a well-formed record satisfies the invariant. */
  lemma LoadCartValid(stored: Option<seq<CartLine>>)
    requires stored.Some? ==> KeysUnique(stored.value) && QuantitiesPositive(stored.value)
    ensures Invariant(LoadCart(stored))
  {
  }

  /**
   * Any sequence of actions whose adds ask for at least one item keeps the
   * invariant, and reloading the page from the persisted record restores
   * exactly the current lines.
   */
  lemma {:induction false} RunPreservesInvariant(c: Cart, actions: seq<CartAction>)
    requires Invariant(c)
    requires forall i :: 0 <= i < |actions| ==> PositiveAdd(actions[i])
    ensures Invariant(Run(c, actions))
    ensures LoadCart(Run(c, actions).saved).items == Run(c, actions).items
    decreases |actions|
  {
    if |actions| > 0 {
      var a := actions[0];
      ReducePreservesKeysUnique(c, a);
      ReducePreservesQuantitiesPositive(c, a);
      ReducePreservesPromoValid(c, a);
      ReducePreservesStorageMirrors(c, a);
      RunPreservesInvariant(Reduce(c, a), actions[1..]);
    }
  }

  // ---------------------------------------------------------------------------
  // Consequences
  // ---------------------------------------------------------------------------

  /**
   * Adding the same (id, colour, size) twice to a cart without that key
   * yields one new line, last, carrying the summed quantity.
   */
  lemma AddTwiceMerges(c: Cart, product: Product, q1: int, q2: int, color: string, size: string, now1: nat, now2: nat)
    requires forall i :: 0 <= i < |c.items| ==> !HasKey(c.items[i], product.id, color, size)
    ensures var r := AddToCart(AddToCart(c, product, Some(q1), color, size, now1), product, Some(q2), color, size, now2);
      && |r.items| == |c.items| + 1
      && r.items[..|c.items|] == c.items
      && r.items[|c.items|] == CartLine(product, q1 + q2, color, size, CartItemId(product.id, color, size, now1))
  {
    var c1 := AddToCart(c, product, Some(q1), color, size, now1);
    assert IsFirstWithKey(c1.items, product.id, color, size, |c.items|);
  }

  /** An update never leaves the updated line below one, whatever is asked. */
  lemma UpdateQuantityFloor(c: Cart, lineId: string, quantity: int, i: int)
    requires IsFirstWithId(c.items, lineId, i)
    ensures UpdateQuantity(c, lineId, quantity).items[i].quantity >= 1
    ensures quantity >= 1 ==> UpdateQuantity(c, lineId, quantity).items[i].quantity == quantity
  {
  }

  /**
   * Line ids are not unique per key: a hyphen inside a colour or size lets
   * two different keys added in the same millisecond share an id.
   */
  lemma CartItemIdCollides()
    ensures CartItemId(1, "a-b", "c", 0) == CartItemId(1, "a", "b-c", 0)
  {
    assert CartItemId(1, "a-b", "c", 0) == "1-a-b-c-0";
  }
}

=== FILE: filters_slice.dfy ===
/**
 * The filter-criteria store (`store/filtersSlice.js`): six plain setters and
 * a reset. Nothing is validated: a price range whose lower bound exceeds its
 * upper bound, or any rating, is stored as given.
 */
module FiltersSlice {

  /** The two-element `priceRange` array `[min, max]`, both bounds inclusive. */
  datatype PriceRange = PriceRange(min: real, max: real)

  datatype Filters = Filters(
    category: string,
    brand: string,
    priceRange: PriceRange,
    rating: real,
    searchQuery: string,
    sortBy: string
  )

  datatype FiltersAction =
    | SetCategory(category: string)
    | SetBrand(brand: string)
    | SetPriceRange(range: PriceRange)
    | SetRating(rating: real)
    | SetSearchQuery(query: string)
    | SetSortBy(sortBy: string)
    | ResetFilters

  /** The store's initial state, which `resetFilters` restores. */
  function InitialFilters(): (f: Filters)
    ensures f.category == [] && f.brand == [] && f.searchQuery == []
    ensures f.priceRange.min == 0.0 && f.priceRange.max == 2000.0
    ensures f.rating == 0.0 && f.sortBy == "relevance"
  {
    Filters("", "", PriceRange(0.0, 2000.0), 0.0, "", "relevance")
  }

  /** The slice reducer. */
  function Reduce(f: Filters, a: FiltersAction): Filters {
    match a
    case SetCategory(c) => f.(category := c)
    case SetBrand(b) => f.(brand := b)
    case SetPriceRange(r) => f.(priceRange := r)
    case SetRating(r) => f.(rating := r)
    case SetSearchQuery(q) => f.(searchQuery := q)
    case SetSortBy(s) => f.(sortBy := s)
    case ResetFilters =>
      Filters("", "", PriceRange(0.0, 2000.0), 0.0, "", "relevance")
  }

  /** Each setter writes its payload into its own field and nowhere else. */
  lemma SettersTouchOneField(f: Filters, a: FiltersAction)
    requires !a.ResetFilters?
    ensures var g := Reduce(f, a);
      && g.category == (if a.SetCategory? then a.category else f.category)
      && g.brand == (if a.SetBrand? then a.brand else f.brand)
      && g.priceRange == (if a.SetPriceRange? then a.range else f.priceRange)
      && g.rating == (if a.SetRating? then a.rating else f.rating)
      && g.searchQuery == (if a.SetSearchQuery? then a.query else f.searchQuery)
      && g.sortBy == (if a.SetSortBy? then a.sortBy else f.sortBy)
  {
  }

  /** Setting a field twice is the same as setting it once to the second value. */
  lemma SettersLastWriteWins(f: Filters, a: FiltersAction, b: FiltersAction)
    requires !a.ResetFilters?
    requires a.SetCategory? == b.SetCategory? && a.SetBrand? == b.SetBrand?
    requires a.SetPriceRange? == b.SetPriceRange? && a.SetRating? == b.SetRating?
    requires a.SetSearchQuery? == b.SetSearchQuery? && a.SetSortBy? == b.SetSortBy?
    ensures Reduce(Reduce(f, a), b) == Reduce(f, b)
  {
  }

  /** From any state, `resetFilters` yields the initial state. */
  lemma ResetRestoresInitial(f: Filters)
    ensures Reduce(f, ResetFilters) == InitialFilters()
  {
  }

  /** Resetting twice is resetting once. */
  lemma ResetIdempotent(f: Filters)
    ensures Reduce(Reduce(f, ResetFilters), ResetFilters) == Reduce(f, ResetFilters)
  {
  }

  /** The store keeps a price range whose bounds are in the wrong order. */
  lemma PriceRangeNotValidated(f: Filters, lo: real, hi: real)
    requires hi < lo
    ensures var g := Reduce(f, SetPriceRange(PriceRange(lo, hi)));
      g.priceRange.min > g.priceRange.max
  {
  }
}

=== FILE: helpers.dfy ===
/**
 * The pure list and price utilities of `utils/helpers.js`:
 * `calculateDiscount`, `filterProducts` and `sortProducts`.
 */
module Helpers {
  import opened Seqs
  import opened Text
  import opened Products
  import opened FiltersSlice

  // ---------------------------------------------------------------------------
  // calculateDiscount
  // ---------------------------------------------------------------------------

  /** The price after taking `discountPercentage` percent off. */
  function CalculateDiscount(price: real, discountPercentage: real): (r: real)
    ensures r == price * (1.0 - discountPercentage / 100.0)
    ensures discountPercentage == 0.0 ==> r == price
    ensures 0.0 <= discountPercentage <= 100.0 && 0.0 <= price ==> 0.0 <= r <= price
  {
    ScaleMonotone(price, discountPercentage, 100.0);
    price - (price * discountPercentage) / 100.0
  }

  lemma ScaleMonotone(a: real, b: real, c: real)
    ensures 0.0 <= a && b <= c ==> a * b <= a * c
  {
    assert a * c - a * b == a * (c - b);
  }

  // ---------------------------------------------------------------------------
  // filterProducts
  // ---------------------------------------------------------------------------

  /** A category is set when non-empty; then it must match ignoring case. */
  predicate MatchesCategory(p: Product, f: Filters) {
    f.category == [] || EqualsIgnoringCase(p.category, f.category)
  }

  /** A brand is set when non-empty; then it must match ignoring case. */
  predicate MatchesBrand(p: Product, f: Filters) {
    f.brand == [] || EqualsIgnoringCase(p.brand, f.brand)
  }

  /** Both ends of the price range are inclusive. */
  predicate InPriceRange(p: Product, f: Filters) {
    f.priceRange.min <= p.price <= f.priceRange.max
  }

  predicate MeetsRating(p: Product, f: Filters) {
    p.rating >= f.rating
  }

  /**
   * A query is set when non-empty; then, ignoring case, it must occur in the
   * title, the description or the brand.
   */
  predicate MatchesQuery(p: Product, f: Filters) {
    var q := Lower(f.searchQuery);
    || f.searchQuery == []
    || Contains(Lower(p.title), q)
    || Contains(Lower(p.description), q)
    || Contains(Lower(p.brand), q)
  }

  /** The conjunction of the five tests `filterProducts` applies. */
  predicate Matches(p: Product, f: Filters) {
    && MatchesCategory(p, f)
    && MatchesBrand(p, f)
    && InPriceRange(p, f)
    && MeetsRating(p, f)
    && MatchesQuery(p, f)
  }

  function Matcher(f: Filters): Product -> bool {
    p => Matches(p, f)
  }

  /**
   * `filterProducts(products, filters)`: the products that pass every test,
   * in their original order, each as often as it occurs in the input.
   */
  function FilterProducts(products: seq<Product>, f: Filters): (r: seq<Product>)
    ensures IsSubsequence(r, products)
    ensures forall i :: 0 <= i < |r| ==> Matches(r[i], f)
    ensures forall i :: 0 <= i < |products| && Matches(products[i], f) ==> products[i] in r
    ensures forall p :: multiset(r)[p] == if Matches(p, f) then multiset(products)[p] else 0
  {
    FilterIsSubsequence(products, Matcher(f));
    FilterCounts(products, Matcher(f));
    Filter(products, Matcher(f))
  }

  /** Filtering twice with the same criteria is filtering once. */
  lemma FilterProductsIdempotent(products: seq<Product>, f: Filters)
    ensures FilterProducts(FilterProducts(products, f), f) == FilterProducts(products, f)
  {
    FilterIdempotent(products, Matcher(f));
  }

  /** Criteria left empty constrain nothing: only price and rating remain. */
  lemma EmptyCriteriaUnconstrained(p: Product, f: Filters)
    requires f.category == [] && f.brand == [] && f.searchQuery == []
    ensures Matches(p, f) <==> InPriceRange(p, f) && MeetsRating(p, f)
  {
  }

  // ---------------------------------------------------------------------------
  // sortProducts
  // ---------------------------------------------------------------------------

  /** The branches of the `switch (sortBy)`; `Unsorted` is the default. */
  datatype SortOrder = PriceLow | PriceHigh | RatingHigh | Newest | Unsorted

  function ParseSortBy(sortBy: string): SortOrder {
    if sortBy == "price-low" then PriceLow
    else if sortBy == "price-high" then PriceHigh
    else if sortBy == "rating" then RatingHigh
    else if sortBy == "newest" then Newest
    else Unsorted
  }

  /**
   * Each comparator `(a, b) => key(a) - key(b)` puts `a` first exactly when
   * its score is smaller: price for 'price-low', the negated price for
   * 'price-high', the negated rating for 'rating', the negated id for
   * 'newest'.
   */
  function Score(p: Product, o: SortOrder): real {
    match o
    case PriceLow => p.price
    case PriceHigh => -p.price
    case RatingHigh => -p.rating
    case Newest => -(p.id as real)
    case Unsorted => 0.0
  }

  ghost predicate SortedBy(s: seq<Product>, o: SortOrder) {
    forall i, j :: 0 <= i < j < |s| ==> Score(s[i], o) <= Score(s[j], o)
  }

  function ScoreIs(o: SortOrder, k: real): Product -> bool {
    p => Score(p, o) == k
  }

  /** The elements of `s` whose score is `k`, in the order of `s`. */
  function WithScore(s: seq<Product>, o: SortOrder, k: real): seq<Product> {
    Filter(s, ScoreIs(o, k))
  }

  /**
   * Inserts `x` in front of the first element whose score is not smaller:
   * `x` lands after every element with a smaller score and before those with
   * an equal one.
   */
  function Insert(x: Product, s: seq<Product>, o: SortOrder): (r: seq<Product>)
    ensures multiset(r) == multiset(s) + multiset{x}
    ensures |r| == |s| + 1 && (r[0] == x || (|s| > 0 && r[0] == s[0]))
  {
    if |s| == 0 then [x]
    else if Score(x, o) <= Score(s[0], o) then [x] + s
    else
      assert s == [s[0]] + s[1..];
      [s[0]] + Insert(x, s[1..], o)
  }

  /** A sorted sequence stays sorted without its first element. */
  lemma SortedTail(s: seq<Product>, o: SortOrder)
    requires |s| > 0 && SortedBy(s, o)
    ensures SortedBy(s[1..], o)
  {
    forall i, j | 0 <= i < j < |s[1..]| ensures Score(s[1..][i], o) <= Score(s[1..][j], o) {
      assert s[1..][i] == s[i + 1] && s[1..][j] == s[j + 1];
    }
  }

  /** An element scoring no more than the head of a sorted sequence can go in front of it. */
  lemma SortedCons(y: Product, t: seq<Product>, o: SortOrder)
    requires SortedBy(t, o)
    requires |t| == 0 || Score(y, o) <= Score(t[0], o)
    ensures SortedBy([y] + t, o)
  {
    var u := [y] + t;
    forall i, j | 0 <= i < j < |u| ensures Score(u[i], o) <= Score(u[j], o) {
      assert u[j] == t[j - 1];
      if i == 0 {
        assert Score(t[0], o) <= Score(t[j - 1], o);
      } else {
        assert u[i] == t[i - 1];
      }
    }
  }

  lemma {:induction false} InsertSorted(x: Product, s: seq<Product>, o: SortOrder)
    requires SortedBy(s, o)
    ensures SortedBy(Insert(x, s, o), o)
  {
    if |s| == 0 {
      assert Insert(x, s, o) == [x];
    } else if Score(x, o) <= Score(s[0], o) {
      SortedCons(x, s, o);
    } else {
      var t := Insert(x, s[1..], o);
      SortedTail(s, o);
      InsertSorted(x, s[1..], o);
      assert t[0] == x || t[0] == s[1];
      SortedCons(s[0], t, o);
    }
  }

  /** The products of score `k` in a one-element list. */
  lemma WithScoreSingle(y: Product, o: SortOrder, k: real)
    ensures WithScore([y], o, k) == if Score(y, o) == k then [y] else []
  {
    assert [y][1..] == [];
  }

  /** Keeping the products of score `k` from `[y] + t` keeps `y` first exactly when it scores `k`. */
  lemma WithScoreCons(y: Product, t: seq<Product>, o: SortOrder, k: real)
    ensures WithScore([y] + t, o, k) == (if Score(y, o) == k then [y] else []) + WithScore(t, o, k)
  {
    FilterConcat([y], t, ScoreIs(o, k));
    WithScoreSingle(y, o, k);
  }

  /** Among the elements with any one score, `x` comes first and the rest keep their order. */
  lemma {:induction false} InsertStable(x: Product, s: seq<Product>, o: SortOrder, k: real)
    ensures WithScore(Insert(x, s, o), o, k) == (if Score(x, o) == k then [x] else []) + WithScore(s, o, k)
  {
    if |s| == 0 || Score(x, o) <= Score(s[0], o) {
      assert Insert(x, s, o) == [x] + s;
      WithScoreCons(x, s, o, k);
    } else {
      var t := Insert(x, s[1..], o);
      InsertStable(x, s[1..], o, k);
      assert Insert(x, s, o) == [s[0]] + t;
      WithScoreCons(s[0], t, o, k);
      assert s == [s[0]] + s[1..];
      WithScoreCons(s[0], s[1..], o, k);
      if Score(x, o) == k {
        assert Score(s[0], o) != k;
      }
    }
  }

  /**
   * Stable insertion sort by score: a sorted permutation of the input in
   * which elements of equal score keep their input order.
   */
  function StableSort(s: seq<Product>, o: SortOrder): (r: seq<Product>)
    ensures multiset(r) == multiset(s)
    ensures SortedBy(r, o)
    ensures forall k :: WithScore(r, o, k) == WithScore(s, o, k)
  {
    if |s| == 0 then []
    else
      var t := StableSort(s[1..], o);
      assert s == [s[0]] + s[1..];
      InsertSorted(s[0], t, o);
      forall k ensures WithScore(Insert(s[0], t, o), o, k) == WithScore(s, o, k) {
        InsertStable(s[0], t, o, k);
      }
      Insert(s[0], t, o)
  }

  /**
   * `sortProducts(products, sortBy)`: a new sequence. For the four named
   * keys it is a stable sort by the key's order; for any other key,
   * including 'relevance', it is the input order.
   */
  function SortProducts(products: seq<Product>, sortBy: string): (r: seq<Product>)
    ensures multiset(r) == multiset(products)
    ensures SortedBy(r, ParseSortBy(sortBy))
    ensures forall k :: WithScore(r, ParseSortBy(sortBy), k) == WithScore(products, ParseSortBy(sortBy), k)
    ensures ParseSortBy(sortBy) == Unsorted ==> r == products
  {
    var o := ParseSortBy(sortBy);
    if o == Unsorted then products else StableSort(products, o)
  }

  /**
   * What each named key promises, in the product's own fields: ascending
   * price for 'price-low', descending price for 'price-high', descending
   * rating for 'rating' and descending id for 'newest'.
   */
  lemma SortKeyOrders(products: seq<Product>, sortBy: string)
    ensures var r := SortProducts(products, sortBy);
      forall i, j :: 0 <= i < j < |r| ==>
        && (sortBy == "price-low" ==> r[i].price <= r[j].price)
        && (sortBy == "price-high" ==> r[i].price >= r[j].price)
        && (sortBy == "rating" ==> r[i].rating >= r[j].rating)
        && (sortBy == "newest" ==> r[i].id >= r[j].id)
  {
    var r := SortProducts(products, sortBy);
    forall i, j | 0 <= i < j < |r|
      ensures Score(r[i], ParseSortBy(sortBy)) <= Score(r[j], ParseSortBy(sortBy))
    {
    }
  }

  /** No two positions of `s` hold the same price. */
  ghost predicate DistinctPrices(s: seq<Product>) {
    forall i, j :: 0 <= i < |s| && 0 <= j < |s| && i != j ==> s[i].price != s[j].price
  }

  ghost predicate StrictlySortedBy(s: seq<Product>, o: SortOrder) {
    forall i, j :: 0 <= i < j < |s| ==> Score(s[i], o) < Score(s[j], o)
  }

  /** Distinct prices stay distinct under any rearrangement. */
  lemma DistinctPricesPermutation(a: seq<Product>, b: seq<Product>)
    requires multiset(a) == multiset(b) && DistinctPrices(a)
    ensures DistinctPrices(b)
  {
    forall i, j | 0 <= i < |b| && 0 <= j < |b| && i != j ensures b[i].price != b[j].price {
      var lo, hi := if i < j then i else j, if i < j then j else i;
      TwoPositionsInMultiset(b, lo, hi);
      var i', j' := PairAtTwoPositions(a, b[lo], b[hi]);
    }
  }

  /** A strictly ordered list and a sorted permutation of it start with the same element. */
  lemma SortedPermutationHead(a: seq<Product>, b: seq<Product>, o: SortOrder)
    requires |a| > 0 && multiset(a) == multiset(b)
    requires StrictlySortedBy(a, o) && SortedBy(b, o)
    ensures |b| > 0 && b[0] == a[0]
  {
    assert a[0] in multiset(b);
    var j :| 0 <= j < |b| && b[j] == a[0];
    assert b[0] in multiset(a);
    var i :| 0 <= i < |a| && a[i] == b[0];
    assert Score(b[0], o) <= Score(b[j], o);
  }

  /**
   * A strictly ordered arrangement is the only sorted one: any sorted
   * permutation of it is equal to it.
   */
  lemma {:induction false} SortedPermutationUnique(a: seq<Product>, b: seq<Product>, o: SortOrder)
    requires multiset(a) == multiset(b)
    requires StrictlySortedBy(a, o) && SortedBy(b, o)
    ensures a == b
    decreases |a|
  {
    if |a| == 0 {
      assert |multiset(b)| == 0;
    } else {
      SortedPermutationHead(a, b, o);
      DropFirstMultiset(a);
      DropFirstMultiset(b);
      SortedPermutationUnique(a[1..], b[1..], o);
      assert a == [a[0]] + a[1..] && b == [b[0]] + b[1..];
    }
  }

  /** Read back to front, an ascending list of distinct prices is strictly descending. */
  lemma ReverseStrictlyDescending(lo: seq<Product>)
    requires SortedBy(lo, PriceLow) && DistinctPrices(lo)
    ensures StrictlySortedBy(Reverse(lo), PriceHigh)
  {
    var rev := Reverse(lo);
    forall i, j | 0 <= i < j < |rev| ensures Score(rev[i], PriceHigh) < Score(rev[j], PriceHigh) {
      assert rev[i] == lo[|lo| - 1 - i] && rev[j] == lo[|lo| - 1 - j];
      assert Score(lo[|lo| - 1 - j], PriceLow) <= Score(lo[|lo| - 1 - i], PriceLow);
    }
  }

  /**
   * With no two equal prices, sorting by 'price-high' the result of sorting
   * by 'price-low' gives exactly the reverse order.
   */
  lemma PriceLowThenHighReverses(products: seq<Product>)
    requires DistinctPrices(products)
    ensures var lo := SortProducts(products, "price-low");
      var hi := SortProducts(lo, "price-high");
      |hi| == |lo| && forall i :: 0 <= i < |lo| ==> hi[i] == lo[|lo| - 1 - i]
  {
    assert ParseSortBy("price-low") == PriceLow && ParseSortBy("price-high") == PriceHigh;
    var lo := SortProducts(products, "price-low");
    var hi := SortProducts(lo, "price-high");
    DistinctPricesPermutation(products, lo);
    ReverseStrictlyDescending(lo);
    ReverseMultiset(lo);
    SortedPermutationUnique(Reverse(lo), hi, PriceHigh);
  }
}

=== FILE: products.dfy ===
/**
 * The product record the catalog API returns and every other component
 * reads. Prices, discount percentages and ratings are exact reals; ids are
 * integers. Image references are passed through untouched by every
 * operation of the model and are not represented.
 */
module Products {

  datatype Product = Product(
    id: int,
    title: string,
    description: string,
    brand: string,
    category: string,
    price: real,
    discountPercentage: real,
    rating: real,
    stock: int
  )
}

=== FILE: products_page.dfy ===
/**
 * The list logic of the products page (`app/products/page.js`): the
 * filter-then-sort pipeline re-run whenever the catalog or the criteria
 * change, twelve products per page, and the previous / next buttons.
 */
module ProductsPage {
  import opened Products
  import opened FiltersSlice
  import opened Helpers

  const ProductsPerPage: nat := 12

  /**
   * The list the page shows: the products passing the criteria, each as
   * often as in the catalog, ordered (stably) by the chosen sort key.
   */
  function DisplayedProducts(all: seq<Product>, f: Filters): (r: seq<Product>)
    ensures forall p :: multiset(r)[p] == if Matches(p, f) then multiset(all)[p] else 0
    ensures SortedBy(r, ParseSortBy(f.sortBy))
    ensures forall k :: WithScore(r, ParseSortBy(f.sortBy), k) == WithScore(FilterProducts(all, f), ParseSortBy(f.sortBy), k)
    ensures ParseSortBy(f.sortBy) == Unsorted ==> r == FilterProducts(all, f)
  {
    SortProducts(FilterProducts(all, f), f.sortBy)
  }

  /** The page's list state: the products shown and the current page number. */
  datatype Listing = Listing(shown: seq<Product>, currentPage: int)

  /**
   * The effect run on every change of catalog or criteria: the previous list
   * and page are discarded, the list is recomputed from scratch (stably
   * sorted, or in catalog order for an unknown key) and the page is 1.
   */
  function OnInputsChanged(l: Listing, all: seq<Product>, f: Filters): (r: Listing)
    ensures r.currentPage == 1
    ensures forall p :: multiset(r.shown)[p] == if Matches(p, f) then multiset(all)[p] else 0
    ensures SortedBy(r.shown, ParseSortBy(f.sortBy))
    ensures forall k :: WithScore(r.shown, ParseSortBy(f.sortBy), k) == WithScore(FilterProducts(all, f), ParseSortBy(f.sortBy), k)
    ensures ParseSortBy(f.sortBy) == Unsorted ==> r.shown == FilterProducts(all, f)
  {
    Listing(DisplayedProducts(all, f), 1)
  }

  /**
   * `s.slice(start, end)`: a negative bound counts from the end, and both
   * bounds are clamped into the sequence.
   */
  function JsSlice<T>(s: seq<T>, start: int, end: int): seq<T> {
    var from := if start < 0 then (if |s| + start < 0 then 0 else |s| + start) else (if start < |s| then start else |s|);
    var to := if end < 0 then (if |s| + end < 0 then 0 else |s| + end) else (if end < |s| then end else |s|);
    if from < to then s[from..to] else []
  }

  function Min(a: int, b: int): int {
    if a < b then a else b
  }

  /**
   * The products on page `page`: for pages from 1 on, positions
   * [(page - 1) * 12, page * 12) of the list, cut at its end.
   */
  function PageItems<T>(s: seq<T>, page: int): (r: seq<T>)
    ensures page >= 1 ==> |r| <= ProductsPerPage
    ensures page >= 1 ==> r == s[Min((page - 1) * ProductsPerPage, |s|)..Min(page * ProductsPerPage, |s|)]
  {
    var last := page * ProductsPerPage;
    JsSlice(s, last - ProductsPerPage, last)
  }

  /** `Math.ceil(n / 12)`: the fewest pages of twelve that hold `n` products. */
  function TotalPages(n: nat): (t: nat)
    ensures t * ProductsPerPage >= n
    ensures t == 0 || (t - 1) * ProductsPerPage < n
  {
    (n + ProductsPerPage - 1) / ProductsPerPage
  }

  /** Every page from 1 to the page count shows at least one product. */
  lemma PagesNonEmpty<T>(s: seq<T>, page: int)
    requires 1 <= page <= TotalPages(|s|)
    ensures |PageItems(s, page)| >= 1
  {
  }

  /** Pages 1 to k, one after another. */
  function PagesUpTo<T>(s: seq<T>, k: nat): seq<T> {
    if k == 0 then [] else PagesUpTo(s, k - 1) + PageItems(s, k)
  }

  /** Page k runs from where page k - 1 stops. */
  lemma PageBounds<T>(s: seq<T>, k: nat)
    requires k > 0
    ensures Min((k - 1) * ProductsPerPage, |s|) <= Min(k * ProductsPerPage, |s|)
    ensures PageItems(s, k) == s[Min((k - 1) * ProductsPerPage, |s|)..Min(k * ProductsPerPage, |s|)]
  {
    assert (k - 1) * ProductsPerPage + ProductsPerPage == k * ProductsPerPage;
  }

  /** A prefix followed by the next slice is the longer prefix. */
  lemma PrefixSplit<T>(s: seq<T>, a: int, b: int)
    requires 0 <= a <= b <= |s|
    ensures s[..a] + s[a..b] == s[..b]
  {
  }

  /** The first k pages together are the first 12k products (or all of them). */
  lemma {:induction false} PagesUpToIsPrefix<T>(s: seq<T>, k: nat)
    ensures PagesUpTo(s, k) == s[..Min(k * ProductsPerPage, |s|)]
  {
    if k > 0 {
      PagesUpToIsPrefix(s, k - 1);
      var a := Min((k - 1) * ProductsPerPage, |s|);
      var b := Min(k * ProductsPerPage, |s|);
      PageBounds(s, k);
      PrefixSplit(s, a, b);
    }
  }

  /** All the pages together are exactly the list. */
  lemma AllPagesAreTheList<T>(s: seq<T>)
    ensures PagesUpTo(s, TotalPages(|s|)) == s
  {
    PagesUpToIsPrefix(s, TotalPages(|s|));
  }

  /** The Previous button: one page back, never below page 1. */
  function PrevPage(page: int): (r: int)
    ensures r >= 1
    ensures page >= 2 ==> r == page - 1
  {
    if page - 1 > 1 then page - 1 else 1
  }

  /** The Next button: one page on, never past the last page. */
  function NextPage(page: int, totalPages: int): (r: int)
    ensures r <= totalPages
    ensures page < totalPages ==> r == page + 1
  {
    if page + 1 < totalPages then page + 1 else totalPages
  }

  /** From a page in range, both buttons land on a page in range. */
  lemma ButtonsStayInRange(page: int, totalPages: int)
    requires 1 <= page <= totalPages
    ensures 1 <= PrevPage(page) <= page <= totalPages
    ensures 1 <= page <= NextPage(page, totalPages) <= totalPages
  {
  }

  /** The price slider dispatches the range from 0 to the slider's value. */
  function SliderRange(value: int): (r: PriceRange)
    ensures r.min == 0.0
    ensures r.max == value as real
  {
    PriceRange(0.0, value as real)
  }

  /**
   * After the slider is moved to `value`, the price test keeps exactly the
   * products priced from 0 up to `value`, whatever range was set before.
   */
  lemma SliderSetsPriceTest(f: Filters, value: int, p: Product)
    ensures InPriceRange(p, Reduce(f, SetPriceRange(SliderRange(value)))) <==> 0.0 <= p.price <= value as real
  {
  }
}

=== FILE: seqs.dfy ===
/**
 * The two array primitives the stores and utilities are built on:
 * `Array.prototype.filter` (keep the elements a predicate accepts, in order)
 * and `Array.prototype.find` / `findIndex` (the FIRST element a predicate
 * accepts), together with the subsequence relation that describes a filter.
 */
module Seqs {

  datatype Option<+T> = None | Some(value: T)

  /** `a` is obtained from `b` by deleting elements, keeping the order. */
  predicate IsSubsequence<T(==)>(a: seq<T>, b: seq<T>)
    decreases |b|
  {
    || |a| == 0
    || (|b| > 0 && (if a[0] == b[0] then IsSubsequence(a[1..], b[1..]) else IsSubsequence(a, b[1..])))
  }

  /** `s.filter(keep)`. */
  function Filter<T>(s: seq<T>, keep: T -> bool): (r: seq<T>)
    ensures |r| <= |s|
    ensures forall i :: 0 <= i < |r| ==> keep(r[i])
    ensures forall i :: 0 <= i < |s| && keep(s[i]) ==> s[i] in r
    ensures forall x :: x in r ==> x in s
  {
    if |s| == 0 then [] else if keep(s[0]) then [s[0]] + Filter(s[1..], keep) else Filter(s[1..], keep)
  }

  /**
   * A filter keeps exactly the accepted elements: each accepted value as
   * often as it occurs in the input, each rejected value never.
   */
  lemma {:induction false} FilterCounts<T>(s: seq<T>, keep: T -> bool)
    ensures forall x :: multiset(Filter(s, keep))[x] == if keep(x) then multiset(s)[x] else 0
  {
    if |s| > 0 {
      FilterCounts(s[1..], keep);
      assert s == [s[0]] + s[1..];
    }
  }

  /** A filter keeps the order of what it keeps. */
  lemma {:induction false} FilterIsSubsequence<T>(s: seq<T>, keep: T -> bool)
    ensures IsSubsequence(Filter(s, keep), s)
  {
    if |s| > 0 {
      FilterIsSubsequence(s[1..], keep);
      var r := Filter(s, keep);
      if keep(s[0]) {
        assert r[1..] == Filter(s[1..], keep);
      }
    }
  }

  /** Filtering a filtered sequence again with the same predicate changes nothing. */
  lemma {:induction false} FilterIdempotent<T>(s: seq<T>, keep: T -> bool)
    ensures Filter(Filter(s, keep), keep) == Filter(s, keep)
  {
    if |s| > 0 {
      FilterIdempotent(s[1..], keep);
      if keep(s[0]) {
        var r := Filter(s, keep);
        assert r[1..] == Filter(s[1..], keep);
      }
    }
  }

  /** A predicate that accepts every element of `s` leaves it as it is. */
  lemma {:induction false} FilterAllKept<T>(s: seq<T>, keep: T -> bool)
    ensures (forall i :: 0 <= i < |s| ==> keep(s[i])) ==> Filter(s, keep) == s
  {
    if |s| > 0 {
      FilterAllKept(s[1..], keep);
      assert (forall i :: 0 <= i < |s| ==> keep(s[i])) ==> (forall i :: 0 <= i < |s[1..]| ==> keep(s[1..][i]));
    }
  }

  /** Filtering distributes over concatenation. */
  lemma {:induction false} FilterConcat<T>(a: seq<T>, b: seq<T>, keep: T -> bool)
    ensures Filter(a + b, keep) == Filter(a, keep) + Filter(b, keep)
  {
    if |a| > 0 {
      FilterConcat(a[1..], b, keep);
      assert (a + b)[0] == a[0];
      assert (a + b)[1..] == a[1..] + b;
    } else {
      assert a + b == b;
    }
  }

  /** Index `i` holds the first element of `s` that `hit` accepts. */
  predicate IsFirst<T>(s: seq<T>, hit: T -> bool, i: int) {
    && 0 <= i < |s|
    && hit(s[i])
    && forall j :: 0 <= j < i ==> !hit(s[j])
  }

  /** `s.findIndex(hit)`, with `None` for JavaScript's -1. */
  function FindFirst<T>(s: seq<T>, hit: T -> bool): (r: Option<nat>)
    ensures r.Some? ==> IsFirst(s, hit, r.value)
    ensures r.None? ==> forall j :: 0 <= j < |s| ==> !hit(s[j])
  {
    if |s| == 0 then None
    else if hit(s[0]) then Some(0)
    else match FindFirst(s[1..], hit)
      case None => None
      case Some(k) => Some(k + 1)
  }

  /** `s` read back to front. */
  function Reverse<T>(s: seq<T>): (r: seq<T>)
    ensures |r| == |s|
    ensures forall i :: 0 <= i < |s| ==> r[i] == s[|s| - 1 - i]
  {
    if |s| == 0 then [] else Reverse(s[1..]) + [s[0]]
  }

  /** Reversing keeps every element with its multiplicity. */
  lemma {:induction false} ReverseMultiset<T>(s: seq<T>)
    ensures multiset(Reverse(s)) == multiset(s)
  {
    if |s| > 0 {
      ReverseMultiset(s[1..]);
      assert s == [s[0]] + s[1..];
    }
  }

  /** Two different positions of `s` contribute both their elements to its multiset. */
  lemma TwoPositionsInMultiset<T>(s: seq<T>, i: int, j: int)
    requires 0 <= i < j < |s|
    ensures multiset{s[i], s[j]} <= multiset(s)
  {
    assert s == s[..i] + [s[i]] + s[i + 1..j] + [s[j]] + s[j + 1..];
  }

  /** Removing position `i` removes one copy of `s[i]` from the multiset. */
  lemma RemoveAtMultiset<T>(s: seq<T>, i: int)
    requires 0 <= i < |s|
    ensures multiset(s[..i] + s[i + 1..]) == multiset(s) - multiset{s[i]}
  {
    assert s == s[..i] + [s[i]] + s[i + 1..];
  }

  /** Taking one copy of `x` out of a multiset holding `x` and `y` leaves `y`. */
  lemma PairMinusOne<T>(m: multiset<T>, x: T, y: T)
    requires multiset{x, y} <= m
    ensures y in m - multiset{x}
  {
    assert multiset{x, y}[y] <= m[y];
  }

  /** A pair contained in the multiset of `s` sits at two different positions of `s`. */
  lemma PairAtTwoPositions<T>(s: seq<T>, x: T, y: T) returns (i: nat, j: nat)
    requires multiset{x, y} <= multiset(s)
    ensures i < |s| && j < |s| && i != j
    ensures s[i] == x && s[j] == y
  {
    assert x in multiset(s);
    i :| 0 <= i < |s| && s[i] == x;
    var rest := s[..i] + s[i + 1..];
    RemoveAtMultiset(s, i);
    PairMinusOne(multiset(s), x, y);
    assert y in rest;
    var k :| 0 <= k < |rest| && rest[k] == y;
    j := if k < i then k else k + 1;
    assert rest[k] == s[j];
  }

  /** Dropping the first element removes one copy of it from the multiset. */
  lemma DropFirstMultiset<T>(s: seq<T>)
    requires |s| > 0
    ensures multiset(s[1..]) == multiset(s) - multiset{s[0]}
  {
    assert s == [s[0]] + s[1..];
  }
}

=== FILE: text.dfy ===
/**
 * Strings as the storefront uses them: case mapping for case-insensitive
 * comparison, the JavaScript notion of white space behind `trim()`, the
 * substring test behind `includes`, and the decimal rendering of numbers
 * that template literals perform.
 *
 * Case mapping is ASCII only; the JavaScript runtime maps the whole of
 * Unicode, which this model does not.
 */
module Text {

  function LowerChar(c: char): char {
    if 'A' <= c <= 'Z' then (c as int + 32) as char else c
  }

  function UpperChar(c: char): char {
    if 'a' <= c <= 'z' then (c as int - 32) as char else c
  }

  /** `s.toLowerCase()`, restricted to ASCII letters. */
  function Lower(s: string): (r: string)
    ensures |r| == |s|
    ensures forall i :: 0 <= i < |s| ==> r[i] == LowerChar(s[i])
  {
    seq(|s|, i requires 0 <= i < |s| => LowerChar(s[i]))
  }

  /** `s.toUpperCase()`, restricted to ASCII letters. */
  function Upper(s: string): (r: string)
    ensures |r| == |s|
    ensures forall i :: 0 <= i < |s| ==> r[i] == UpperChar(s[i])
  {
    seq(|s|, i requires 0 <= i < |s| => UpperChar(s[i]))
  }

  /** Two strings are equal up to case when their lower-cased forms agree. */
  predicate EqualsIgnoringCase(a: string, b: string) {
    Lower(a) == Lower(b)
  }

  /** `hay.includes(needle)`: the needle occurs at some offset of the hay. */
  predicate Contains(hay: string, needle: string) {
    exists i | 0 <= i <= |hay| - |needle| :: OccursAt(hay, needle, i)
  }

  predicate OccursAt(hay: string, needle: string, i: int) {
    0 <= i && i + |needle| <= |hay| && hay[i..i + |needle|] == needle
  }

  /**
   * The characters `String.prototype.trim` removes: ECMAScript WhiteSpace
   * (tab, vertical tab, form feed, space, no-break space, byte order mark and
   * the space separators of Unicode category Zs) and LineTerminator (line
   * feed, carriage return, line and paragraph separators).
   */
  predicate IsWhitespace(c: char) {
    var n := c as int;
    || n == 0x09 || n == 0x0A || n == 0x0B || n == 0x0C || n == 0x0D
    || n == 0x20 || n == 0xA0 || n == 0x1680
    || (0x2000 <= n <= 0x200A)
    || n == 0x2028 || n == 0x2029 || n == 0x202F || n == 0x205F
    || n == 0x3000 || n == 0xFEFF
  }

  predicate AllWhitespace(s: string) {
    forall i :: 0 <= i < |s| ==> IsWhitespace(s[i])
  }

  /** White space throughout a concatenation means white space throughout each part. */
  lemma AllWhitespaceConcat(a: string, b: string)
    ensures AllWhitespace(a + b) <==> AllWhitespace(a) && AllWhitespace(b)
  {
    if AllWhitespace(a) && AllWhitespace(b) {
      forall i | 0 <= i < |a + b| ensures IsWhitespace((a + b)[i]) {
        if i < |a| {
          assert (a + b)[i] == a[i];
        } else {
          assert (a + b)[i] == b[i - |a|];
        }
      }
    }
    if AllWhitespace(a + b) {
      forall i | 0 <= i < |b| ensures IsWhitespace(b[i]) {
        assert (a + b)[i + |a|] == b[i];
      }
      forall i | 0 <= i < |a| ensures IsWhitespace(a[i]) {
        assert (a + b)[i] == a[i];
      }
    }
  }

  /** A white-space character followed by white space is white space. */
  lemma WhitespacePrefixCons(s: string, n: nat)
    requires 0 < n <= |s| && IsWhitespace(s[0]) && AllWhitespace(s[1..][..n - 1])
    ensures AllWhitespace(s[..n])
  {
    forall i | 0 < i < n ensures IsWhitespace(s[..n][i]) {
      assert s[..n][i] == s[1..][..n - 1][i - 1];
    }
  }

  /** White space followed by a white-space character is white space. */
  lemma WhitespaceSuffixSnoc(s: string, m: nat)
    requires m < |s| && IsWhitespace(s[|s| - 1]) && AllWhitespace(s[..|s| - 1][m..])
    ensures AllWhitespace(s[m..])
  {
    forall i | 0 <= i < |s| - 1 - m ensures IsWhitespace(s[m..][i]) {
      assert s[m..][i] == s[..|s| - 1][m..][i];
    }
  }

  /** Drops leading white space: the result is the suffix of `s` after it. */
  function TrimStart(s: string): (r: string)
    ensures |r| <= |s| && r == s[|s| - |r|..]
    ensures AllWhitespace(s[..|s| - |r|])
    ensures r == [] || !IsWhitespace(r[0])
  {
    if |s| > 0 && IsWhitespace(s[0]) then
      var r := TrimStart(s[1..]);
      assert s[1..][|s[1..]| - |r|..] == s[|s| - |r|..];
      WhitespacePrefixCons(s, |s| - |r|);
      r
    else
      s
  }

  /** Drops trailing white space: the result is the prefix of `s` before it. */
  function TrimEnd(s: string): (r: string)
    ensures |r| <= |s| && r == s[..|r|]
    ensures AllWhitespace(s[|r|..])
    ensures r == [] || !IsWhitespace(r[|r| - 1])
  {
    if |s| > 0 && IsWhitespace(s[|s| - 1]) then
      var r := TrimEnd(s[..|s| - 1]);
      assert s[..|s| - 1][..|r|] == s[..|r|];
      WhitespaceSuffixSnoc(s, |r|);
      r
    else
      s
  }

  /** `s.trim()`. */
  function Trim(s: string): string {
    TrimEnd(TrimStart(s))
  }

  /** `!s.trim()` holds exactly when every character of `s` is white space. */
  lemma TrimEmptyIffBlank(s: string)
    ensures Trim(s) == [] <==> AllWhitespace(s)
  {
    var t := TrimStart(s);
    assert s == s[..|s| - |t|] + t;
    AllWhitespaceConcat(s[..|s| - |t|], t);
    if Trim(s) == [] {
      assert t[0..] == t;
    } else {
      assert t[0] == Trim(s)[0];
    }
  }

  function DigitChar(d: nat): char
    requires d < 10
  {
    "0123456789"[d]
  }

  /** Decimal rendering of a natural number, most significant digit first. */
  function NatToString(n: nat): (r: string)
    ensures |r| >= 1
    ensures forall i :: 0 <= i < |r| ==> '0' <= r[i] <= '9'
    decreases n
  {
    if n < 10 then [DigitChar(n)] else NatToString(n / 10) + [DigitChar(n % 10)]
  }

  /** How a template literal renders an integer: a minus sign, then the digits. */
  function IntToString(i: int): string {
    if i < 0 then "-" + NatToString(-i) else NatToString(i)
  }
}

=== FILE: wishlist_slice.dfy ===
/**
 * The wishlist store (`store/wishlistSlice.js`): a sequence of product
 * snapshots with membership toggled by product id, and the browser's
 * persisted copy (`saved`, `None` when the `wishlist` record is absent).
 */
module WishlistSlice {
  import opened Seqs
  import opened Products

  datatype Wishlist = Wishlist(items: seq<Product>, saved: Option<seq<Product>>)

  /** The initial state: the persisted products when there are any. */
  function LoadWishlist(stored: Option<seq<Product>>): Wishlist {
    Wishlist(if stored.Some? then stored.value else [], stored)
  }

  /**
   * The initial state built from a persisted record with unique ids has
   * unique ids, and the record is either absent with no entries or holds
   * exactly the entries.
   */
  lemma LoadWishlistValid(stored: Option<seq<Product>>)
    requires stored.Some? ==> IdsUnique(stored.value)
    ensures IdsUnique(LoadWishlist(stored).items)
    ensures LoadWishlist(stored).saved == Some(LoadWishlist(stored).items)
      || (LoadWishlist(stored).saved.None? && LoadWishlist(stored).items == [])
  {
  }

  function IdIs(id: int): Product -> bool {
    (p: Product) => p.id == id
  }

  function IdIsNot(id: int): Product -> bool {
    (p: Product) => p.id != id
  }

  predicate Listed(items: seq<Product>, id: int) {
    exists i :: 0 <= i < |items| && items[i].id == id
  }

  ghost predicate IdsUnique(items: seq<Product>) {
    forall i, j :: 0 <= i < j < |items| ==> items[i].id != items[j].id
  }

  /** Index `i` holds the first entry with the given id. */
  predicate IsFirstWithId(items: seq<Product>, id: int, i: int) {
    IsFirst(items, IdIs(id), i)
  }

  /** The entries with any other id, in order. */
  function Without(items: seq<Product>, id: int): seq<Product> {
    Filter(items, IdIsNot(id))
  }

  /**
   * `toggleWishlist`: removes the first entry with the product's id when
   * there is one, and appends the product otherwise; entries with other ids
   * keep their order. The result is persisted.
   */
  function ToggleWishlist(w: Wishlist, p: Product): (r: Wishlist)
    ensures r.saved == Some(r.items)
    ensures forall i :: IsFirstWithId(w.items, p.id, i) ==>
      r.items == w.items[..i] + w.items[i + 1..] && |r.items| == |w.items| - 1
    ensures !Listed(w.items, p.id) ==> r.items == w.items + [p] && |r.items| == |w.items| + 1
    ensures Without(r.items, p.id) == Without(w.items, p.id)
  {
    match FindFirst(w.items, IdIs(p.id))
    case Some(i) =>
      RemoveAtKeepsOthers(w.items, p.id, i);
      var items := w.items[..i] + w.items[i + 1..];
      Wishlist(items, Some(items))
    case None =>
      AppendKeepsOthers(w.items, p);
      var items := w.items + [p];
      Wishlist(items, Some(items))
  }

  /** Removing an entry with the id leaves the entries with other ids as they were. */
  lemma RemoveAtKeepsOthers(items: seq<Product>, id: int, i: int)
    requires 0 <= i < |items| && items[i].id == id
    ensures Without(items[..i] + items[i + 1..], id) == Without(items, id)
  {
    var a, b := items[..i], items[i + 1..];
    assert items == a + ([items[i]] + b);
    FilterConcat(a, [items[i]] + b, IdIsNot(id));
    assert ([items[i]] + b)[1..] == b;
    FilterConcat(a, b, IdIsNot(id));
  }

  /** Appending an entry with the id leaves the entries with other ids as they were. */
  lemma AppendKeepsOthers(items: seq<Product>, p: Product)
    ensures Without(items + [p], p.id) == Without(items, p.id)
  {
    FilterConcat(items, [p], IdIsNot(p.id));
    assert Filter([p], IdIsNot(p.id)) == [];
    assert Without(items, p.id) + [] == Without(items, p.id);
  }

  /** Removing one entry from a list with unique ids removes its id and keeps the rest unique. */
  lemma RemoveAtKeepsIdsUnique(items: seq<Product>, i: int)
    requires IdsUnique(items) && 0 <= i < |items|
    ensures IdsUnique(items[..i] + items[i + 1..])
    ensures !Listed(items[..i] + items[i + 1..], items[i].id)
  {
    var r := items[..i] + items[i + 1..];
    forall a, b | 0 <= a < b < |r| ensures r[a].id != r[b].id {
      var a' := if a < i then a else a + 1;
      var b' := if b < i then b else b + 1;
      assert r[a] == items[a'] && r[b] == items[b'];
    }
    forall a | 0 <= a < |r| ensures r[a].id != items[i].id {
      var a' := if a < i then a else a + 1;
      assert r[a] == items[a'];
    }
  }

  /** Appending a product whose id is absent lists it and keeps the ids unique. */
  lemma AppendKeepsIdsUnique(items: seq<Product>, p: Product)
    requires IdsUnique(items) && !Listed(items, p.id)
    ensures IdsUnique(items + [p])
    ensures Listed(items + [p], p.id)
  {
    var r := items + [p];
    assert r[|items|] == p;
    forall a, b | 0 <= a < b < |r| ensures r[a].id != r[b].id {
      assert r[a] == items[a];
      if b < |items| {
        assert r[b] == items[b];
      }
    }
  }

  /** With unique ids, a toggle flips membership and keeps the ids unique. */
  lemma ToggleFlipsMembership(w: Wishlist, p: Product)
    requires IdsUnique(w.items)
    ensures Listed(ToggleWishlist(w, p).items, p.id) <==> !Listed(w.items, p.id)
    ensures IdsUnique(ToggleWishlist(w, p).items)
  {
    match FindFirst(w.items, IdIs(p.id))
    case Some(i) =>
      assert IsFirstWithId(w.items, p.id, i);
      RemoveAtKeepsIdsUnique(w.items, i);
    case None =>
      AppendKeepsIdsUnique(w.items, p);
  }

  /** From a state without the product, toggling twice gives back the same list. */
  lemma ToggleTwiceWhenAbsent(w: Wishlist, p: Product)
    requires !Listed(w.items, p.id)
    ensures ToggleWishlist(ToggleWishlist(w, p), p).items == w.items
  {
    var w1 := ToggleWishlist(w, p);
    assert IsFirstWithId(w1.items, p.id, |w.items|);
    assert w1.items[..|w.items|] == w.items;
  }

  /**
   * From a state with the product at index `i`, toggling twice brings it
   * back at the END, as the toggled snapshot: the list comes back unchanged
   * only when that entry was already last and equal to the snapshot.
   */
  lemma ToggleTwiceWhenPresent(w: Wishlist, p: Product, i: int)
    requires IdsUnique(w.items) && IsFirstWithId(w.items, p.id, i)
    ensures ToggleWishlist(ToggleWishlist(w, p), p).items == w.items[..i] + w.items[i + 1..] + [p]
    ensures ToggleWishlist(ToggleWishlist(w, p), p).items == w.items <==> i == |w.items| - 1 && w.items[i] == p
  {
    var w1 := ToggleWishlist(w, p);
    assert w1.items == w.items[..i] + w.items[i + 1..];
    RemoveAtKeepsIdsUnique(w.items, i);
    assert ToggleWishlist(w1, p).items == w1.items + [p];
    MoveToEndIff(w.items, i, p);
  }

  /**
   * In a list with unique ids, moving entry `i` to the end as `p` (same id)
   * gives the list back exactly when the entry was last and equal to `p`.
   */
  lemma MoveToEndIff(items: seq<Product>, i: int, p: Product)
    requires IdsUnique(items) && 0 <= i < |items| && items[i].id == p.id
    ensures items[..i] + items[i + 1..] + [p] == items <==> i == |items| - 1 && items[i] == p
  {
    var r := items[..i] + items[i + 1..] + [p];
    if i == |items| - 1 {
      assert items == items[..i] + [items[i]];
    } else {
      assert r[i] == items[i + 1];
      assert r[i].id != items[i].id;
    }
  }

  /**
   * The store loads its record unchecked, so ids may repeat. Then a double
   * toggle need not restore membership: with two entries of one id, the
   * first toggle removes the first entry and the second removes the other.
   */
  lemma ToggleTwiceWithRepeatedId(a: Product, b: Product)
    requires a.id == b.id
    ensures ToggleWishlist(ToggleWishlist(Wishlist([a, b], None), a), a).items == []
  {
    var w1 := ToggleWishlist(Wishlist([a, b], None), a);
    assert IsFirstWithId([a, b], a.id, 0);
    assert w1.items == [b];
    assert IsFirstWithId([b], a.id, 0);
  }
}
